=== FILE: README.md ===
# Tabletop server command engine, in Dafny

A model of the command-processing engine of the `TabletopServer` in
`server.py` of a small shared-tabletop game server. Clients send commands
(`JOIN`, `CHAT`, `ROLL_DICE`, `MOVE_TOKEN`, `SET_HP`) over a persistent
connection. The server checks the envelope and drops duplicates by the
`client_id:event_id` key. It stamps each admitted command with the next
sequence number and applies it to the shared game state. A successful
command's event is broadcast to every registered connection. A failed one
gets an error back on the sender's connection only.

The model is a set of pure functions over immutable state. Each received
message and each disconnect is one atomic step.

- `Wrappers`: `Option` and `Result`.
- `Values`: the decoded JSON value (`Str`, `Int`, `Bool`, `Dict`, `Other`). Also
  Python's `isinstance` checks as the server uses them (a `bool` passes as an
  `int`) and `str.strip()` over Python's whitespace set.
- `Errors`: one constructor per error branch, with the server's message text. An error outcome is sent with the text `Errors.Text` gives.
- `Envelope`: `validate_command`.
- `Game`: `Player`, `GameState`, the five command handlers, and the dispatch.
- `Registry`: the `clients` map, registration, `broadcast` with send failures
  given as a parameter, and the handler's disconnect rule.
- `Server`: the server state (`lastSeq`, `dedup`, game, `clients`),
  `handle_command`, one iteration of the `handler` loop, and disconnect.
- `Trace`: runs over sequences of messages and disconnects from many
  connections. Each connection's handler remembers the client id it last
  registered.

The die roll is an input. Its precondition puts it in `[1, sides]` only when
the command is an acceptable `ROLL_DICE`. The ids whose send fails during a
broadcast are also an input.

### Behaviour worth knowing

Three consequences of the code's order of operations, each proved:

- `next_seq()` runs before the per-command checks (server.py:84). Refused
  and unknown commands therefore use up a seq number. Event seqs are strictly
  increasing but can have gaps (`Trace.UnknownCommandLeavesGap`).
- The dedup entry is written only after success (server.py:178). A refused
  request can be retried with the same event id (`Server.RetryAfterFailure`).
- The dedup key is the single string `client_id + ":" + event_id`
  (server.py:80). Client `a:b` with event `c` and client `a` with event `b:c`
  share a key (`Server.CollidingKeysSuppress`). Without colons in client ids
  the key is unambiguous (`Server.DedupKeyInjective`).

## Model

| member | source | states |
|---|---|---|
| Values.AsInt | server.py:119 | `isinstance(v, int)` accepts exactly integers and booleans; a boolean counts as 1 or 0 |
| Values.StripEmptyIff | server.py:88 | `not s.strip()` holds exactly when the string is empty or all whitespace |
| Values.Strip | server.py:88-92 | `strip()` never lengthens the string, and a non-empty result neither begins nor ends with a character of `str.isspace()`'s whitespace set (`Values.IsSpace`) |
| Values.StripShape | server.py:92 | `strip()` returns the middle of the string between a whitespace-only prefix and suffix |
| Envelope.Validate | server.py:47-60 | each of the six envelope errors is returned exactly when every earlier check passes and its own check fails; success exactly when all pass, carrying the message's own client_id, event_id, command and payload |
| Envelope.ValidateToValue | server.py:47-60 | a well-formed command message passes the check and yields back the same envelope |
| Envelope.ValidateIgnoresExtraFields | server.py:47-60 | fields other than the five the check reads do not change its verdict |
| Errors.UnknownTextEchoesName | server.py:174-175 | the unknown-command error text is a fixed prefix followed by the command name, so different names give different texts |
| Game.ParseCommand | server.py:86-176 | dispatch is on exact command names; any other name falls through to the unknown-command branch, keeping the name |
| Game.SidesOf | server.py:118-119 | a die size is accepted exactly when it is an int (booleans included) between 2 and 10000 |
| Game.DiceSidesEdges | server.py:119 | sides 1 and 10001 are refused, 2 and 10000 accepted; a boolean and a string are refused |
| Game.ApplyJoin | server.py:86-102 | refused exactly when the name is missing, not a string, or blank; otherwise only the sender's player changes: created with hp 20 or renamed with its hp kept, the stored name is the trimmed one, and the event reports it |
| Game.ApplyChat | server.py:104-115 | refused exactly when the text is missing, not a string, or blank; otherwise no state change and the event carries the text untrimmed |
| Game.ApplyRoll | server.py:117-129 | refused exactly when the die size is unacceptable; otherwise no state change, and the event reports the die size and the supplied roll (the stand-in for `random.randint(1, sides)`), which lies in `[1, sides]` |
| Game.ApplyMove | server.py:131-148 | token id checked before the coordinates; on success only that token changes, replaced whole by the new position, players untouched, and the event reports the stored position |
| Game.ApplySetHp | server.py:150-172 | target checked before delta; an unknown target is created with its own id as name and 20 hp; the new hp is `max(0, old + delta)`; no other player or token changes; the event's new_hp is the stored hp |
| Game.HpFloorsAtZero | server.py:160-164 | an unknown target with delta -999 ends with 0 hp |
| Game.Apply | server.py:86-176 | an unknown name is refused with that name; each known command is refused exactly when its own handler's checks fail (JOIN: name missing, not a string or blank; CHAT: the same for text; ROLL_DICE: unacceptable die size; MOVE_TOKEN: token id, x or y unusable; SET_HP: target or delta unusable), only with that handler's errors, and its success is that handler's result; payload errors are never envelope errors; each command yields its own event kind; CHAT and ROLL_DICE leave the game unchanged, MOVE_TOKEN leaves the players alone, JOIN and SET_HP leave the tokens alone |
| Game.ApplyKeepsGameInv | server.py:160-171 | every player stays filed under its own id with hp at least 0, and a SET_HP event reports the hp stored for its target |
| Game.MoveTwiceKeepsLatest | server.py:141 | moving one token twice leaves only the second position and no other token changes |
| Registry.Register | server.py:196-198 | a valid message maps its client id to this connection, replacing any earlier one, and no other entry changes |
| Registry.UnregisterIfCurrent | server.py:204-206 | on disconnect the last registered id is removed only if it still maps to this connection; otherwise the registry is untouched |
| Registry.Broadcast | server.py:36-45 | exactly the ids whose send failed are removed; every other entry keeps its connection; the event reaches exactly the connections of non-failing entries |
| Registry.BroadcastLoop | server.py:36-45 | the source's two-pass loop (send and collect failures, then remove them) computes the same registry and recipients as `Broadcast` |
| Registry.LastRegistrationWins | server.py:198 | registering one id twice is the same as registering only the second connection |
| Registry.StaleDisconnectKeepsNewer | server.py:196-206 | after an id re-registers on a second connection, the first connection's disconnect leaves the registry unchanged |
| Server.InitialIsEmpty | server.py:24-28 | a new server has seq 0, no dedup records, no registered clients, no players, no tokens, and satisfies the server invariant |
| Server.DedupKey | server.py:80 | the key is the client id, one colon, then the event id, in that order |
| Server.ErrorRecipients | server.py:65-72 | an error goes to the sender's registered connection, or nowhere when it has none |
| Server.HandleCommand | server.py:74-179 | a known dedup key gives a silent no-op with nothing changed; every other command advances seq by exactly one; an error is the one the command's handler refuses with, changes no game state, dedup or registry, and reaches only the sender; a success records exactly its key with the event's seq, applies the command, and broadcasts the event |
| Server.HandleMessage | server.py:181-200 | an envelope error changes nothing and is answered on the receiving connection; a valid envelope registers its client id on this connection (also for a duplicate) and then runs the command: a duplicate changes nothing else; a refused command uses one seq, keeps game and dedup, and its handler's error comes back on this connection; an emitted event has the next seq and the request's event id, its key is recorded with that seq, the game is the one the command's handler produced, and the registry and recipients are exactly what `Broadcast` gives over the registry with the sender registered, so the sender receives it unless its own send failed |
| Server.Disconnect | server.py:202-206 | a disconnect changes only the registry, removing the handler's id only while it still points at this connection |
| Server.HandleCommandKeepsInv | server.py:80-179 | players stay well-formed and every dedup entry holds a distinct seq in `[1, lastSeq]` |
| Server.HandleMessageKeepsInv | server.py:181-200 | receiving a message keeps the server invariant |
| Server.DisconnectKeepsInv | server.py:202-206 | a disconnect keeps the server invariant |
| Server.RetryAfterFailure | server.py:84-178 | a refused command leaves no dedup entry, so resending it is processed again and uses another seq |
| Server.ResendIsSilent | server.py:80-82 | after a request succeeded, any resend with the same client and event id, whatever its payload, changes nothing and sends nothing |
| Server.DedupKeyInjective | server.py:80 | when neither client id contains a colon, equal dedup keys mean equal (client id, event id) pairs |
| Server.CollidingKeysSuppress | server.py:80-82 | client `a:b` event `c` and client `a` event `b:c` share a key, so the second is dropped once the first succeeds |
| Trace.StepWorld | server.py:181-206 | one input advances seq by at most one; only an emitted event adds a dedup entry (its request's key, which was new, with its seq); a valid message makes the connection's handler remember that message's client id, an invalid one leaves it alone; a disconnect forgets the connection, removes the remembered id from the registry only while it still points at this connection, and leaves seq and game state alone |
| Trace.Run | server.py:32-34 | across a run the counter never decreases, event seqs are strictly increasing, above the starting counter and at most the final one, and there are no more events than seq numbers used |
| Trace.RunRecords | server.py:80-178 | each event of a run comes from a request whose key was not recorded at the start and is recorded at the end with that event's seq; records present at the start never change |
| Trace.AtMostOnce | server.py:80-82 | no two events of a run come from the same dedup key |
| Trace.RunKeepsInv | server.py:181-206 | the server invariant holds after any run |
| Trace.UnknownCommandLeavesGap | server.py:84-176 | an unknown command followed by a JOIN from a fresh server emits one event, with seq 2 |

## Left out

- The websocket transport, JSON encoding and decoding, and the "Invalid JSON." reply (server.py:185-189). A message arrives already decoded as a `Values.Value`. Events and errors are datatypes, not encoded text.
- asyncio scheduling, and `run`/`main` (server.py:208-221). Each message and each disconnect is one atomic step. Interleavings at the `await`s are not modelled. Among them: another connection registering a new client id, or a disconnect removing one, while `broadcast` iterates the registry. Python reports that as a dict changed size during iteration. Re-registering an id that is already present only replaces a value and does not raise. It is not harmless either: if the old connection's send then fails, `broadcast` pops that id (server.py:44-45) and so removes the newer registration, the case `handler` guards against on disconnect (server.py:205).
- `random.randint` (server.py:122). The roll is an input, constrained to `[1, sides]` for an accepted `ROLL_DICE`.
- Send failures in `send_error_to` (server.py:69-72) are swallowed by the source and change nothing, so the model ignores them. A failing error reply in `handler` (server.py:188, 193) ends the connection. The model leaves that to a separate `Close` input.
- Registry.Broadcast: recipients are a set of connections. If one connection is registered under two client ids, the source sends it the event twice. The model records it once.
- Game.ApplyMove: a boolean `x` or `y` is stored and reported as 1 or 0. The source keeps the bool object, which behaves as 1 or 0 in arithmetic but is written as `true`/`false` on the wire.
- Game.ApplySetHp: a boolean `delta` is reported in the event as 1 or 0, not as the bool object. The stored hp is the same as in the source.
- Strings are sequences of Dafny `char`s, which are Unicode scalar values. `json.loads` can also produce lone surrogates (from `"\ud800"`), which no Dafny `char` can hold, so such strings are not modelled.
- Errors.Text: the fixed error texts are listed but not proved pairwise different; only the unknown-command text's dependence on the name is proved.
- Connection ids are assumed fresh: a `Receive` after a `Close` on the same id is treated as the same connection. The source compares socket objects (`is ws`, server.py:205), and a new socket never matches an old one, so a registry entry left by an earlier id of a closed handler could be matched by a later connection here but not in the source. No proved property over runs depends on this.
- The client (client.py) is not part of this model. It holds the interactive input parsing and printing, plus a running maximum of seen seqs.

=== FILE: envelope.dfy ===
/**
 The envelope check the server runs on every decoded message before it
 looks at the command: the message must be an object of type "command"
 with non-empty string client_id, event_id and command, and an object payload.
 */
module Envelope {
  import opened Wrappers
  import opened Values
  import opened Errors

  /** A message that passed the envelope check. */
  datatype Envelope = Envelope(clientId: string, eventId: string, command: string, payload: map<string, Value>)

  /** What every envelope the check lets through satisfies. */
  predicate WellFormed(e: Envelope)
  {
    e.clientId != [] && e.eventId != [] && e.command != []
  }

  // The individual checks, in the order the server applies them.

  predicate TypeOk(fields: map<string, Value>)
  {
    Get(fields, "type") == Some(Str("command"))
  }

  predicate FieldOk(fields: map<string, Value>, key: string)
  {
    AsNonEmptyStr(Get(fields, key)).Some?
  }

  predicate PayloadOk(fields: map<string, Value>)
  {
    "payload" in fields && fields["payload"].Dict?
  }

  /**
   The envelope check. Each error is reported exactly when every earlier
   check passed and its own failed; success is reported exactly when all
   checks pass, and then the envelope carries the message's own fields.
   */
  function Validate(v: Value): (r: Result<Envelope, ErrorKind>)
    ensures r == Failure(NotObject) <==> !v.Dict?
    ensures r == Failure(BadType) <==> v.Dict? && !TypeOk(v.fields)
    ensures r == Failure(BadClientId) <==>
              v.Dict? && TypeOk(v.fields) && !FieldOk(v.fields, "client_id")
    ensures r == Failure(BadEventId) <==>
              v.Dict? && TypeOk(v.fields) && FieldOk(v.fields, "client_id") && !FieldOk(v.fields, "event_id")
    ensures r == Failure(BadCommand) <==>
              v.Dict? && TypeOk(v.fields) && FieldOk(v.fields, "client_id") && FieldOk(v.fields, "event_id")
              && !FieldOk(v.fields, "command")
    ensures r == Failure(BadPayload) <==>
              v.Dict? && TypeOk(v.fields) && FieldOk(v.fields, "client_id") && FieldOk(v.fields, "event_id")
              && FieldOk(v.fields, "command") && !PayloadOk(v.fields)
    ensures r.Success? <==>
              v.Dict? && TypeOk(v.fields) && FieldOk(v.fields, "client_id") && FieldOk(v.fields, "event_id")
              && FieldOk(v.fields, "command") && PayloadOk(v.fields)
    ensures r.Failure? ==> IsEnvelopeError(r.error)
    ensures r.Success? ==> WellFormed(r.value)
    ensures r.Success? ==>
              && v.fields["client_id"] == Str(r.value.clientId)
              && v.fields["event_id"] == Str(r.value.eventId)
              && v.fields["command"] == Str(r.value.command)
              && v.fields["payload"] == Dict(r.value.payload)
  {
    if !v.Dict? then Failure(NotObject)
    else
      var f := v.fields;
      if !TypeOk(f) then Failure(BadType)
      else if AsNonEmptyStr(Get(f, "client_id")).None? then Failure(BadClientId)
      else if AsNonEmptyStr(Get(f, "event_id")).None? then Failure(BadEventId)
      else if AsNonEmptyStr(Get(f, "command")).None? then Failure(BadCommand)
      else if !PayloadOk(f) then Failure(BadPayload)
      else Success(Envelope(f["client_id"].s, f["event_id"].s, f["command"].s, f["payload"].fields))
  }

  /** The message a client sends for an envelope. */
  function ToValue(e: Envelope): Value
  {
    Dict(map[
      "type" := Str("command"),
      "client_id" := Str(e.clientId),
      "event_id" := Str(e.eventId),
      "command" := Str(e.command),
      "payload" := Dict(e.payload)
    ])
  }

  /** Every well-formed envelope, sent as a message, passes the check unchanged. */
  lemma ValidateToValue(e: Envelope)
    requires WellFormed(e)
    ensures Validate(ToValue(e)) == Success(e)
  {
    var f := ToValue(e).fields;
    assert Get(f, "type") == Some(Str("command"));
    assert Get(f, "client_id") == Some(Str(e.clientId));
    assert Get(f, "event_id") == Some(Str(e.eventId));
    assert Get(f, "command") == Some(Str(e.command));
    assert f["payload"] == Dict(e.payload);
  }

  /** Fields other than the five the check reads do not affect its verdict. */
  lemma ValidateIgnoresExtraFields(fields: map<string, Value>, key: string, x: Value)
    requires key !in {"type", "client_id", "event_id", "command", "payload"}
    ensures Validate(Dict(fields[key := x])) == Validate(Dict(fields))
  {
    var g := fields[key := x];
    assert Get(g, "type") == Get(fields, "type");
    assert Get(g, "client_id") == Get(fields, "client_id");
    assert Get(g, "event_id") == Get(fields, "event_id");
    assert Get(g, "command") == Get(fields, "command");
    assert Get(g, "payload") == Get(fields, "payload");
  }
}

=== FILE: errors.dfy ===
/** The reasons the server gives back to a sender, one per error branch of the server. */
module Errors {

  datatype ErrorKind =
      // envelope checks
    | NotObject
    | BadType
    | BadClientId
    | BadEventId
    | BadCommand
    | BadPayload
      // per-command payload checks
    | JoinName
    | ChatText
    | DiceSides
    | TokenId
    | TokenCoords
    | HpTarget
    | HpDelta
    | UnknownCommand(name: string)

  /** True for the reasons the envelope check can give. */
  predicate IsEnvelopeError(e: ErrorKind)
  {
    e.NotObject? || e.BadType? || e.BadClientId? || e.BadEventId? || e.BadCommand? || e.BadPayload?
  }

  /** The human-readable text the server puts in the error message. */
  function Text(e: ErrorKind): string
  {
    match e
    case NotObject => "Message must be a JSON object."
    case BadType => "Expected type='command'."
    case BadClientId => "Missing/invalid client_id."
    case BadEventId => "Missing/invalid event_id."
    case BadCommand => "Missing/invalid command."
    case BadPayload => "Missing/invalid payload (must be object)."
    case JoinName => "JOIN requires payload.name as non-empty string."
    case ChatText => "CHAT requires payload.text as non-empty string."
    case DiceSides => "ROLL_DICE requires payload.sides as int >=2."
    case TokenId => "MOVE_TOKEN requires payload.token_id as non-empty string."
    case TokenCoords => "MOVE_TOKEN requires payload.x and payload.y as integers."
    case HpTarget => "SET_HP requires payload.target_id as non-empty string."
    case HpDelta => "SET_HP requires payload.delta as integer."
    case UnknownCommand(name) => "Unknown command: " + name
  }

  /**
   The unknown-command text echoes the command name after a fixed prefix, so
   two different names never give the same text.
   */
  lemma UnknownTextEchoesName(n1: string, n2: string)
    ensures Text(UnknownCommand(n1))[|"Unknown command: "|..] == n1
    ensures Text(UnknownCommand(n1)) == Text(UnknownCommand(n2)) <==> n1 == n2
  {
  }
}

=== FILE: game.dfy ===
/**
 The shared game state (players and tokens) and the five commands that
 change it. Each command either yields the new state and the body of the
 event to broadcast, or the reason it was refused.
 */
module Game {
  import opened Wrappers
  import opened Values
  import opened Errors

  const DefaultHp: int := 20
  const MinSides: int := 2
  const MaxSides: int := 10_000

  datatype Player = Player(clientId: string, name: string, hp: int)

  /** A token's position; a move replaces it whole. */
  datatype Token = Token(x: int, y: int)

  datatype GameState = GameState(players: map<string, Player>, tokens: map<string, Token>)

  /** The command names the server dispatches on, and everything else. */
  datatype Command = Join | Chat | RollDice | MoveToken | SetHp | Unknown(name: string)

  /** What a successful command broadcasts, besides its seq and event_id. */
  datatype EventBody =
    | Joined(clientId: string, name: string)
    | Chatted(clientId: string, text: string)
    | Rolled(clientId: string, sides: int, result: int)
    | TokenMoved(tokenId: string, x: int, y: int)
    | HpSet(targetId: string, delta: int, newHp: int)

  datatype Applied = Applied(game: GameState, body: EventBody)

  function Name(c: Command): string
  {
    match c
    case Join => "JOIN"
    case Chat => "CHAT"
    case RollDice => "ROLL_DICE"
    case MoveToken => "MOVE_TOKEN"
    case SetHp => "SET_HP"
    case Unknown(n) => n
  }

  /** The dispatch on the command string: exact, case-sensitive matches. */
  function ParseCommand(s: string): (c: Command)
    ensures Name(c) == s
    ensures c.Unknown? <==> s !in {"JOIN", "CHAT", "ROLL_DICE", "MOVE_TOKEN", "SET_HP"}
  {
    if s == "JOIN" then Join
    else if s == "CHAT" then Chat
    else if s == "ROLL_DICE" then RollDice
    else if s == "MOVE_TOKEN" then MoveToken
    else if s == "SET_HP" then SetHp
    else Unknown(s)
  }

  /** Every player is filed under its own id and has non-negative hp. */
  predicate GameInv(g: GameState)
  {
    forall k | k in g.players :: g.players[k].clientId == k && g.players[k].hp >= 0
  }

  /** The number of sides a ROLL_DICE payload asks for, when it is acceptable. */
  function SidesOf(payload: map<string, Value>): (r: Option<int>)
    ensures r.Some? <==> AsInt(Get(payload, "sides")).Some? && MinSides <= AsInt(Get(payload, "sides")).value <= MaxSides
    ensures r.Some? ==> r == AsInt(Get(payload, "sides"))
  {
    var sides := AsInt(Get(payload, "sides"));
    if sides.None? || sides.value < MinSides || sides.value > MaxSides then None else sides
  }

  /** The die roll supplied for a command lies on the die it asks for. */
  predicate RollFits(c: Command, payload: map<string, Value>, roll: int)
  {
    c == RollDice && SidesOf(payload).Some? ==> 1 <= roll <= SidesOf(payload).value
  }

  /** JOIN: create the sender's player, or rename it, with the trimmed name. */
  function ApplyJoin(g: GameState, clientId: string, payload: map<string, Value>): (r: Result<Applied, ErrorKind>)
    ensures r.Failure? <==> AsStr(Get(payload, "name")).None? || AllSpace(AsStr(Get(payload, "name")).value)
    ensures r.Failure? ==> r.error == JoinName
    ensures r.Success? ==>
              var name := Strip(AsStr(Get(payload, "name")).value);
              var ps := r.value.game.players;
              && name != [] && !IsSpace(name[0]) && !IsSpace(name[|name| - 1])
              && r.value.game.tokens == g.tokens
              && ps.Keys == g.players.Keys + {clientId}
              && (forall k | k in g.players && k != clientId :: ps[k] == g.players[k])
              && ps[clientId].clientId == (if clientId in g.players then g.players[clientId].clientId else clientId)
              && ps[clientId].name == name
              && ps[clientId].hp == (if clientId in g.players then g.players[clientId].hp else DefaultHp)
              && r.value.body == Joined(clientId, name)
  {
    var raw := AsStr(Get(payload, "name"));
    if raw.None? then Failure(JoinName)
    else
      StripEmptyIff(raw.value);
      StripShape(raw.value);
      if Strip(raw.value) == [] then Failure(JoinName)
      else
        var name := Strip(raw.value);
        var p := if clientId in g.players then g.players[clientId].(name := name) else Player(clientId, name, DefaultHp);
        Success(Applied(g.(players := g.players[clientId := p]), Joined(clientId, name)))
  }

  /** CHAT: no state change; the event carries the text as sent, untrimmed. */
  function ApplyChat(g: GameState, clientId: string, payload: map<string, Value>): (r: Result<Applied, ErrorKind>)
    ensures r.Failure? <==> AsStr(Get(payload, "text")).None? || AllSpace(AsStr(Get(payload, "text")).value)
    ensures r.Failure? ==> r.error == ChatText
    ensures r.Success? ==>
              && r.value.game == g
              && r.value.body.Chatted?
              && r.value.body.clientId == clientId
              && Get(payload, "text") == Some(Str(r.value.body.text))
  {
    var text := AsStr(Get(payload, "text"));
    if text.None? then Failure(ChatText)
    else
      StripEmptyIff(text.value);
      if Strip(text.value) == [] then Failure(ChatText)
      else Success(Applied(g, Chatted(clientId, text.value)))
  }

  /** ROLL_DICE: no state change; the supplied roll is reported with the die size. */
  function ApplyRoll(g: GameState, clientId: string, payload: map<string, Value>, roll: int): (r: Result<Applied, ErrorKind>)
    requires RollFits(RollDice, payload, roll)
    ensures r.Failure? <==> SidesOf(payload).None?
    ensures r.Failure? ==> r.error == DiceSides
    ensures r.Success? ==>
              && r.value.game == g
              && r.value.body.Rolled?
              && r.value.body.clientId == clientId
              && Some(r.value.body.sides) == AsInt(Get(payload, "sides"))
              && MinSides <= r.value.body.sides <= MaxSides
              && r.value.body.result == roll
              && 1 <= r.value.body.result <= r.value.body.sides
  {
    match SidesOf(payload)
    case None => Failure(DiceSides)
    case Some(sides) => Success(Applied(g, Rolled(clientId, sides, roll)))
  }

  /** MOVE_TOKEN: put the token at (x, y), replacing whatever it held. */
  function ApplyMove(g: GameState, payload: map<string, Value>): (r: Result<Applied, ErrorKind>)
    ensures r == Failure(TokenId) <==> AsNonEmptyStr(Get(payload, "token_id")).None?
    ensures r == Failure(TokenCoords) <==>
              AsNonEmptyStr(Get(payload, "token_id")).Some?
              && (AsInt(Get(payload, "x")).None? || AsInt(Get(payload, "y")).None?)
    ensures r.Success? ==>
              var id := AsNonEmptyStr(Get(payload, "token_id")).value;
              var ts := r.value.game.tokens;
              && r.value.game.players == g.players
              && ts.Keys == g.tokens.Keys + {id}
              && (forall k | k in g.tokens && k != id :: ts[k] == g.tokens[k])
              && Some(ts[id].x) == AsInt(Get(payload, "x"))
              && Some(ts[id].y) == AsInt(Get(payload, "y"))
              && r.value.body == TokenMoved(id, ts[id].x, ts[id].y)
  {
    var id := AsNonEmptyStr(Get(payload, "token_id"));
    var x := AsInt(Get(payload, "x"));
    var y := AsInt(Get(payload, "y"));
    if id.None? then Failure(TokenId)
    else if x.None? || y.None? then Failure(TokenCoords)
    else
      Success(Applied(g.(tokens := g.tokens[id.value := Token(x.value, y.value)]),
                      TokenMoved(id.value, x.value, y.value)))
  }

  /**
   SET_HP: create the target with the default hp if it is unknown, then add
   the delta, never going below zero.
   */
  function ApplySetHp(g: GameState, payload: map<string, Value>): (r: Result<Applied, ErrorKind>)
    ensures r == Failure(HpTarget) <==> AsNonEmptyStr(Get(payload, "target_id")).None?
    ensures r == Failure(HpDelta) <==>
              AsNonEmptyStr(Get(payload, "target_id")).Some? && AsInt(Get(payload, "delta")).None?
    ensures r.Success? ==>
              var t := AsNonEmptyStr(Get(payload, "target_id")).value;
              var delta := AsInt(Get(payload, "delta")).value;
              var before := if t in g.players then g.players[t].hp else DefaultHp;
              var ps := r.value.game.players;
              && r.value.game.tokens == g.tokens
              && ps.Keys == g.players.Keys + {t}
              && (forall k | k in g.players && k != t :: ps[k] == g.players[k])
              && ps[t].hp >= 0
              && (before + delta >= 0 ==> ps[t].hp == before + delta)
              && (before + delta < 0 ==> ps[t].hp == 0)
              && (t in g.players ==> ps[t].clientId == g.players[t].clientId && ps[t].name == g.players[t].name)
              && (t !in g.players ==> ps[t].clientId == t && ps[t].name == t)
              && r.value.body == HpSet(t, delta, ps[t].hp)
  {
    var t := AsNonEmptyStr(Get(payload, "target_id"));
    var delta := AsInt(Get(payload, "delta"));
    if t.None? then Failure(HpTarget)
    else if delta.None? then Failure(HpDelta)
    else
      var p := if t.value in g.players then g.players[t.value] else Player(t.value, t.value, DefaultHp);
      var hp := if p.hp + delta.value > 0 then p.hp + delta.value else 0;
      Success(Applied(g.(players := g.players[t.value := p.(hp := hp)]), HpSet(t.value, delta.value, hp)))
  }

  /** The five-way dispatch; an unrecognised name is refused with that name. */
  function Apply(g: GameState, clientId: string, c: Command, payload: map<string, Value>, roll: int): (r: Result<Applied, ErrorKind>)
    requires RollFits(c, payload, roll)
    ensures c.Unknown? ==> r == Failure(UnknownCommand(c.name))
    ensures r.Failure? ==> !IsEnvelopeError(r.error)
    ensures r.Success? && c == Join ==> r.value.body.Joined? && r.value.body.clientId == clientId
    ensures r.Success? && c == Chat ==> r.value.body.Chatted? && r.value.body.clientId == clientId
    ensures r.Success? && c == RollDice ==> r.value.body.Rolled? && r.value.body.clientId == clientId
    ensures r.Success? && c == MoveToken ==> r.value.body.TokenMoved?
    ensures r.Success? && c == SetHp ==> r.value.body.HpSet?
    ensures r.Failure? && c == Join ==> r.error == JoinName
    ensures r.Failure? && c == Chat ==> r.error == ChatText
    ensures r.Failure? && c == RollDice ==> r.error == DiceSides
    ensures r.Failure? && c == MoveToken ==> r.error == TokenId || r.error == TokenCoords
    ensures r.Failure? && c == SetHp ==> r.error == HpTarget || r.error == HpDelta
    ensures r.Success? && (c == Chat || c == RollDice) ==> r.value.game == g
    ensures r.Success? && c == MoveToken ==> r.value.game.players == g.players
    ensures r.Success? && (c == Join || c == SetHp) ==> r.value.game.tokens == g.tokens
    ensures c == Join ==>
              (r.Failure? <==> AsStr(Get(payload, "name")).None? || AllSpace(AsStr(Get(payload, "name")).value))
    ensures c == Chat ==>
              (r.Failure? <==> AsStr(Get(payload, "text")).None? || AllSpace(AsStr(Get(payload, "text")).value))
    ensures c == RollDice ==> (r.Failure? <==> SidesOf(payload).None?)
    ensures c == MoveToken ==>
              (r.Failure? <==>
                 AsNonEmptyStr(Get(payload, "token_id")).None? || AsInt(Get(payload, "x")).None? || AsInt(Get(payload, "y")).None?)
    ensures c == SetHp ==>
              (r.Failure? <==> AsNonEmptyStr(Get(payload, "target_id")).None? || AsInt(Get(payload, "delta")).None?)
    ensures r.Success? && c == Join ==> r == ApplyJoin(g, clientId, payload)
    ensures r.Success? && c == Chat ==> r == ApplyChat(g, clientId, payload)
    ensures r.Success? && c == RollDice ==> r == ApplyRoll(g, clientId, payload, roll)
    ensures r.Success? && c == MoveToken ==> r == ApplyMove(g, payload)
    ensures r.Success? && c == SetHp ==> r == ApplySetHp(g, payload)
  {
    match c
    case Join => ApplyJoin(g, clientId, payload)
    case Chat => ApplyChat(g, clientId, payload)
    case RollDice => ApplyRoll(g, clientId, payload, roll)
    case MoveToken => ApplyMove(g, payload)
    case SetHp => ApplySetHp(g, payload)
    case Unknown(name) => Failure(UnknownCommand(name))
  }

  /** No command breaks the players invariant, and every hp it reports is the stored one. */
  lemma ApplyKeepsGameInv(g: GameState, clientId: string, c: Command, payload: map<string, Value>, roll: int)
    requires GameInv(g)
    requires RollFits(c, payload, roll)
    ensures var r := Apply(g, clientId, c, payload, roll);
            r.Success? ==> GameInv(r.value.game)
    ensures var r := Apply(g, clientId, c, payload, roll);
            r.Success? && r.value.body.HpSet? ==>
              r.value.body.targetId in r.value.game.players
              && r.value.game.players[r.value.body.targetId].hp == r.value.body.newHp
  {
  }

  /** Moving the same token twice keeps only the second position. */
  lemma MoveTwiceKeepsLatest(g: GameState, p1: map<string, Value>, p2: map<string, Value>)
    requires ApplyMove(g, p1).Success?
    requires ApplyMove(ApplyMove(g, p1).value.game, p2).Success?
    requires Get(p1, "token_id") == Get(p2, "token_id")
    ensures var id := AsNonEmptyStr(Get(p2, "token_id")).value;
            var ts := ApplyMove(ApplyMove(g, p1).value.game, p2).value.game.tokens;
            ts == g.tokens[id := ts[id]] && Some(ts[id].x) == AsInt(Get(p2, "x")) && Some(ts[id].y) == AsInt(Get(p2, "y"))
  {
  }

  /** The die-size bounds at their edges; a boolean counts as 1 or 0 and is refused. */
  lemma DiceSidesEdges()
    ensures SidesOf(map["sides" := Int(1)]).None?
    ensures SidesOf(map["sides" := Int(2)]) == Some(2)
    ensures SidesOf(map["sides" := Int(10_000)]) == Some(10_000)
    ensures SidesOf(map["sides" := Int(10_001)]).None?
    ensures SidesOf(map["sides" := Bool(true)]).None?
    ensures SidesOf(map["sides" := Str("20")]).None?
  {
    assert Get(map["sides" := Int(1)], "sides") == Some(Int(1));
    assert Get(map["sides" := Int(2)], "sides") == Some(Int(2));
    assert Get(map["sides" := Int(10_000)], "sides") == Some(Int(10_000));
    assert Get(map["sides" := Int(10_001)], "sides") == Some(Int(10_001));
    assert Get(map["sides" := Bool(true)], "sides") == Some(Bool(true));
    assert Get(map["sides" := Str("20")], "sides") == Some(Str("20"));
  }

  /** A big negative delta on an unknown target creates it at 20 hp and floors the result at 0. */
  lemma HpFloorsAtZero(g: GameState, t: string)
    requires t != [] && t !in g.players
    ensures var r := ApplySetHp(g, map["target_id" := Str(t), "delta" := Int(-999)]);
            r.Success? && r.value.game.players[t] == Player(t, t, 0) && r.value.body == HpSet(t, -999, 0)
  {
    var p := map["target_id" := Str(t), "delta" := Int(-999)];
    assert Get(p, "target_id") == Some(Str(t));
    assert Get(p, "delta") == Some(Int(-999));
  }
}

=== FILE: registry.dfy ===
/**
 The connection registry: which live connection currently speaks for each
 client id, and how broadcasting and disconnecting change it.
 */
module Registry {
  import opened Wrappers

  /** An opaque handle naming one live connection; only its identity matters. */
  type ConnId = nat

  type Clients = map<string, ConnId>

  /** A valid message declares its client id on this connection: the last registration wins. */
  function Register(clients: Clients, clientId: string, conn: ConnId): (r: Clients)
    ensures r.Keys == clients.Keys + {clientId}
    ensures r[clientId] == conn
    ensures forall k | k in clients && k != clientId :: r[k] == clients[k]
  {
    clients[clientId := conn]
  }

  /** The handler's last registered id still maps to this very connection. */
  predicate IsCurrent(clients: Clients, registered: Option<string>, conn: ConnId)
  {
    registered.Some? && registered.value != [] && registered.value in clients && clients[registered.value] == conn
  }

  /**
   On disconnect, the handler's last registered id is dropped only if the
   registry still maps it to this very connection.
   */
  function UnregisterIfCurrent(clients: Clients, registered: Option<string>, conn: ConnId): (r: Clients)
    ensures IsCurrent(clients, registered, conn) ==> r.Keys == clients.Keys - {registered.value}
    ensures !IsCurrent(clients, registered, conn) ==> r == clients
    ensures forall k | k in r :: k in clients && r[k] == clients[k]
  {
    if IsCurrent(clients, registered, conn) then clients - {registered.value} else clients
  }

  /** The registry after a broadcast, and the connections that got the event. */
  datatype Fanout = Fanout(remaining: Clients, delivered: set<ConnId>)

  /**
   A broadcast tries every registered connection; exactly the ids whose
   send failed are dropped, and every other entry is kept as it was.
   */
  function Broadcast(clients: Clients, failed: set<string>): (r: Fanout)
    ensures r.remaining.Keys == clients.Keys - failed
    ensures forall k | k in r.remaining :: r.remaining[k] == clients[k]
    ensures forall c :: c in r.delivered <==> exists k :: k in clients && k !in failed && clients[k] == c
  {
    var remaining := map k | k in clients && k !in failed :: clients[k];
    Fanout(remaining, remaining.Values)
  }

  /**
   The broadcast as the server runs it: one pass over the registry that
   sends and collects the failed ids, then a pass that drops them.
   */
  method BroadcastLoop(clients: Clients, failed: set<string>) returns (remaining: Clients, delivered: set<ConnId>)
    ensures Fanout(remaining, delivered) == Broadcast(clients, failed)
  {
    var todo := clients.Keys;
    var dead: seq<string> := [];
    delivered := {};
    while todo != {}
      invariant todo <= clients.Keys
      invariant forall i | 0 <= i < |dead| :: dead[i] in clients && dead[i] in failed && dead[i] !in todo
      invariant forall k | k in clients && k !in todo && k in failed :: k in dead
      invariant forall c :: c in delivered <==> exists k :: k in clients && k !in todo && k !in failed && clients[k] == c
      decreases todo
    {
      var cid :| cid in todo;
      if cid in failed {
        dead := dead + [cid];
      } else {
        delivered := delivered + {clients[cid]};
      }
      todo := todo - {cid};
    }
    remaining := clients;
    var i := 0;
    while i < |dead|
      invariant 0 <= i <= |dead|
      invariant remaining.Keys == clients.Keys - (set j | 0 <= j < i :: dead[j])
      invariant forall k | k in remaining :: remaining[k] == clients[k]
    {
      remaining := remaining - {dead[i]};
      i := i + 1;
    }
    assert (set j | 0 <= j < |dead| :: dead[j]) == clients.Keys * failed;
    assert remaining == Broadcast(clients, failed).remaining;
  }

  /** Two registrations of one id: only the second connection is kept. */
  lemma LastRegistrationWins(clients: Clients, clientId: string, first: ConnId, second: ConnId)
    ensures Register(Register(clients, clientId, first), clientId, second) == Register(clients, clientId, second)
  {
  }

  /**
   A stale disconnect (the first connection closing after the same id
   re-registered on a second one) leaves the newer registration in place.
   */
  lemma StaleDisconnectKeepsNewer(clients: Clients, clientId: string, first: ConnId, second: ConnId)
    requires first != second
    ensures var c := Register(Register(clients, clientId, first), clientId, second);
            UnregisterIfCurrent(c, Some(clientId), first) == c
  {
  }
}

=== FILE: server.dfy ===
/**
 The command-processing engine: duplicate suppression, sequencing, dispatch
 to the game, fan-out of the resulting event, and the registry rules of the
 per-connection handler. Each message is handled as one atomic step.
 */
module Server {
  import opened Wrappers
  import opened Values
  import opened Errors
  import opened Envelope
  import opened Game
  import opened Registry

  /** Everything the server keeps between messages. */
  datatype ServerState = ServerState(lastSeq: nat, dedup: map<string, nat>, game: GameState, clients: Clients)

  const Initial: ServerState := ServerState(0, map[], GameState(map[], map[]), map[])

  /** A sequenced event, as broadcast. */
  datatype Event = Event(seqNo: nat, eventId: string, body: EventBody)

  /**
   What one message produces: nothing, an error for the sender (sent with
   the text `Errors.Text` gives), or an event for everyone.
   */
  datatype Outcome = Silent | Error(error: ErrorKind) | Emitted(event: Event)

  datatype StepResult = StepResult(next: ServerState, outcome: Outcome, recipients: set<ConnId>)

  /**
   The dedup key is the client id and the event id joined by a colon into
   one string, so two different pairs can share a key.
   */
  function DedupKey(clientId: string, eventId: string): (r: string)
    ensures |r| == |clientId| + 1 + |eventId|
    ensures r[..|clientId|] == clientId && r[|clientId|] == ':' && r[|clientId| + 1..] == eventId
  {
    clientId + ":" + eventId
  }

  /**
   The server's invariant: players are well-formed and every recorded
   request holds its own seq number, at most the counter.
   */
  predicate Inv(s: ServerState)
  {
    && GameInv(s.game)
    && (forall k | k in s.dedup :: 1 <= s.dedup[k] <= s.lastSeq)
    && (forall k1, k2 | k1 in s.dedup && k2 in s.dedup && k1 != k2 :: s.dedup[k1] != s.dedup[k2])
  }

  /** An error goes to the sender's registered connection, if it has one. */
  function ErrorRecipients(clients: Clients, clientId: string): (r: set<ConnId>)
    ensures clientId in clients ==> r == {clients[clientId]}
    ensures clientId !in clients ==> r == {}
  {
    if clientId in clients then {clients[clientId]} else {}
  }

  predicate CommandRollFits(env: Envelope, roll: int)
  {
    RollFits(ParseCommand(env.command), env.payload, roll)
  }

  /**
   One validated command. A request already recorded is ignored outright.
   Otherwise a seq number is taken before any payload check, so refused
   and unknown commands use one up too; the request is recorded only when
   the command succeeds, and then its event is broadcast.
   */
  function HandleCommand(s: ServerState, env: Envelope, roll: int, failed: set<string>): (r: StepResult)
    requires CommandRollFits(env, roll)
    ensures DedupKey(env.clientId, env.eventId) in s.dedup <==> r.outcome.Silent?
    ensures r.outcome.Silent? ==> r.next == s && r.recipients == {}
    ensures !r.outcome.Silent? ==> r.next.lastSeq == s.lastSeq + 1
    ensures r.outcome.Error? ==>
              && r.next.dedup == s.dedup
              && r.next.game == s.game
              && r.next.clients == s.clients
              && r.recipients == ErrorRecipients(s.clients, env.clientId)
              && !IsEnvelopeError(r.outcome.error)
              && Apply(s.game, env.clientId, ParseCommand(env.command), env.payload, roll) == Failure(r.outcome.error)
    ensures r.outcome.Error? <==>
              && DedupKey(env.clientId, env.eventId) !in s.dedup
              && Apply(s.game, env.clientId, ParseCommand(env.command), env.payload, roll).Failure?
    ensures r.outcome.Emitted? ==>
              var key := DedupKey(env.clientId, env.eventId);
              && r.outcome.event.seqNo == r.next.lastSeq
              && r.outcome.event.eventId == env.eventId
              && r.next.dedup.Keys == s.dedup.Keys + {key}
              && r.next.dedup[key] == r.next.lastSeq
              && (forall k | k in s.dedup :: r.next.dedup[k] == s.dedup[k])
              && Apply(s.game, env.clientId, ParseCommand(env.command), env.payload, roll)
                 == Success(Applied(r.next.game, r.outcome.event.body))
              && Fanout(r.next.clients, r.recipients) == Broadcast(s.clients, failed)
  {
    var key := DedupKey(env.clientId, env.eventId);
    if key in s.dedup then StepResult(s, Silent, {})
    else
      var n := s.lastSeq + 1;
      match Apply(s.game, env.clientId, ParseCommand(env.command), env.payload, roll)
      case Failure(e) =>
        StepResult(s.(lastSeq := n), Error(e), ErrorRecipients(s.clients, env.clientId))
      case Success(a) =>
        var out := Broadcast(s.clients, failed);
        StepResult(ServerState(n, s.dedup[key := n], a.game, out.remaining),
                   Emitted(Event(n, env.eventId, a.body)), out.delivered)
  }

  /** What one received message produces, with the handler's updated registered id. */
  datatype MessageResult = MessageResult(next: ServerState, registered: Option<string>, outcome: Outcome, recipients: set<ConnId>)

  predicate MessageRollFits(v: Value, roll: int)
  {
    Validate(v).Success? ==> CommandRollFits(Validate(v).value, roll)
  }

  /**
   One decoded message arriving on connection `conn`, whose handler last
   registered `registered`. An envelope error is answered on this
   connection and changes nothing; a valid envelope first registers its
   client id on this connection and then runs the command.
   */
  function HandleMessage(s: ServerState, conn: ConnId, registered: Option<string>, v: Value, roll: int, failed: set<string>)
    : (r: MessageResult)
    requires MessageRollFits(v, roll)
    ensures Validate(v).Failure? ==>
              && r.next == s
              && r.registered == registered
              && r.outcome == Error(Validate(v).error)
              && r.recipients == {conn}
    ensures Validate(v).Success? ==>
              var env := Validate(v).value;
              && r.registered == Some(env.clientId)
              && (r.outcome.Silent? <==> DedupKey(env.clientId, env.eventId) in s.dedup)
              && (r.outcome.Silent? ==>
                    r.next == s.(clients := Register(s.clients, env.clientId, conn)) && r.recipients == {})
              && (!r.outcome.Silent? ==> r.next.lastSeq == s.lastSeq + 1)
              && (r.outcome.Error? ==>
                    && r.next.clients == Register(s.clients, env.clientId, conn)
                    && r.next.game == s.game
                    && r.next.dedup == s.dedup
                    && r.recipients == {conn}
                    && Apply(s.game, env.clientId, ParseCommand(env.command), env.payload, roll)
                       == Failure(r.outcome.error))
              && (r.outcome.Emitted? ==>
                    && r.outcome.event.seqNo == s.lastSeq + 1
                    && r.outcome.event.eventId == env.eventId
                    && r.next.dedup == s.dedup[DedupKey(env.clientId, env.eventId) := r.next.lastSeq]
                    && Apply(s.game, env.clientId, ParseCommand(env.command), env.payload, roll)
                       == Success(Applied(r.next.game, r.outcome.event.body))
                    && Fanout(r.next.clients, r.recipients) == Broadcast(Register(s.clients, env.clientId, conn), failed)
                    && r.next.clients.Keys == (s.clients.Keys + {env.clientId}) - failed
                    && (env.clientId !in failed ==> r.next.clients[env.clientId] == conn && conn in r.recipients))
  {
    match Validate(v)
    case Failure(e) => MessageResult(s, registered, Error(e), {conn})
    case Success(env) =>
      var s1 := s.(clients := Register(s.clients, env.clientId, conn));
      var r := HandleCommand(s1, env, roll, failed);
      MessageResult(r.next, Some(env.clientId), r.outcome, r.recipients)
  }

  /** The connection closed: only the registry may change, and only if it still points here. */
  function Disconnect(s: ServerState, conn: ConnId, registered: Option<string>): (r: ServerState)
    ensures r.lastSeq == s.lastSeq && r.dedup == s.dedup && r.game == s.game
    ensures IsCurrent(s.clients, registered, conn) ==> r.clients.Keys == s.clients.Keys - {registered.value}
    ensures !IsCurrent(s.clients, registered, conn) ==> r.clients == s.clients
    ensures forall k | k in r.clients :: k in s.clients && r.clients[k] == s.clients[k]
  {
    s.(clients := UnregisterIfCurrent(s.clients, registered, conn))
  }

  /** Handling a command keeps the invariant. */
  lemma HandleCommandKeepsInv(s: ServerState, env: Envelope, roll: int, failed: set<string>)
    requires Inv(s)
    requires CommandRollFits(env, roll)
    ensures Inv(HandleCommand(s, env, roll, failed).next)
  {
    var r := HandleCommand(s, env, roll, failed);
    ApplyKeepsGameInv(s.game, env.clientId, ParseCommand(env.command), env.payload, roll);
    if r.outcome.Emitted? {
      var key := DedupKey(env.clientId, env.eventId);
      forall k1, k2 | k1 in r.next.dedup && k2 in r.next.dedup && k1 != k2
        ensures r.next.dedup[k1] != r.next.dedup[k2]
      {
        if k1 == key {
          assert r.next.dedup[k2] == s.dedup[k2] <= s.lastSeq;
        } else if k2 == key {
          assert r.next.dedup[k1] == s.dedup[k1] <= s.lastSeq;
        }
      }
    }
  }

  /** Handling a message keeps the invariant. */
  lemma HandleMessageKeepsInv(s: ServerState, conn: ConnId, registered: Option<string>, v: Value, roll: int, failed: set<string>)
    requires Inv(s)
    requires MessageRollFits(v, roll)
    ensures Inv(HandleMessage(s, conn, registered, v, roll, failed).next)
  {
    if Validate(v).Success? {
      var env := Validate(v).value;
      HandleCommandKeepsInv(s.(clients := Register(s.clients, env.clientId, conn)), env, roll, failed);
    }
  }

  /** A disconnect keeps the invariant. */
  lemma DisconnectKeepsInv(s: ServerState, conn: ConnId, registered: Option<string>)
    requires Inv(s)
    ensures Inv(Disconnect(s, conn, registered))
  {
  }

  /** A fresh server: counter at zero, nothing recorded, no players, tokens or clients; the invariant holds. */
  lemma InitialIsEmpty()
    ensures Initial.lastSeq == 0 && Initial.dedup == map[] && Initial.clients == map[]
    ensures Initial.game.players == map[] && Initial.game.tokens == map[]
    ensures Inv(Initial)
  {
  }

  /** A refused command left no record, so resending the same request is processed again. */
  lemma RetryAfterFailure(s: ServerState, env: Envelope, roll: int, failed: set<string>, roll': int, failed': set<string>)
    requires CommandRollFits(env, roll) && CommandRollFits(env, roll')
    requires HandleCommand(s, env, roll, failed).outcome.Error?
    ensures var s' := HandleCommand(s, env, roll, failed).next;
            var r' := HandleCommand(s', env, roll', failed');
            !r'.outcome.Silent? && r'.next.lastSeq == s.lastSeq + 2
  {
  }

  /**
   Once a request succeeded, every later request with the same dedup key,
   whatever its payload, is silently ignored.
   */
  lemma ResendIsSilent(s: ServerState, env: Envelope, roll: int, failed: set<string>, env': Envelope, roll': int, failed': set<string>)
    requires CommandRollFits(env, roll) && CommandRollFits(env', roll')
    requires HandleCommand(s, env, roll, failed).outcome.Emitted?
    requires DedupKey(env'.clientId, env'.eventId) == DedupKey(env.clientId, env.eventId)
    ensures var s' := HandleCommand(s, env, roll, failed).next;
            HandleCommand(s', env', roll', failed') == StepResult(s', Silent, {})
  {
  }

  /** Without a colon in the client ids, the dedup key determines the pair. */
  lemma DedupKeyInjective(c1: string, e1: string, c2: string, e2: string)
    requires ':' !in c1 && ':' !in c2
    requires DedupKey(c1, e1) == DedupKey(c2, e2)
    ensures c1 == c2 && e1 == e2
  {
    var k := DedupKey(c1, e1);
    // the first colon of the key ends the client id
    assert forall i | 0 <= i < |c1| :: k[i] == c1[i] != ':';
    assert forall i | 0 <= i < |c2| :: k[i] == c2[i] != ':';
    assert k[|c1|] == ':' && k[|c2|] == ':';
    assert c1 == k[..|c1|] == c2;
    assert e1 == k[|c1| + 1..] == e2;
  }

  /**
   With colons the key is ambiguous: client "a:b" sending event "c" and
   client "a" sending event "b:c" share one key, so after the first
   succeeds the second is silently dropped as a duplicate.
   */
  lemma CollidingKeysSuppress(s: ServerState, env: Envelope, roll: int, failed: set<string>, env': Envelope, roll': int, failed': set<string>)
    requires env.clientId == "a:b" && env.eventId == "c"
    requires env'.clientId == "a" && env'.eventId == "b:c"
    requires CommandRollFits(env, roll) && CommandRollFits(env', roll')
    requires HandleCommand(s, env, roll, failed).outcome.Emitted?
    ensures HandleCommand(HandleCommand(s, env, roll, failed).next, env', roll', failed').outcome.Silent?
  {
    KeyClash();
    ResendIsSilent(s, env, roll, failed, env', roll', failed');
  }

  lemma KeyClash()
    ensures DedupKey("a:b", "c") == DedupKey("a", "b:c")
  {
    var k := ['a', ':', 'b', ':', 'c'];
    assert DedupKey("a:b", "c") == k;
    assert DedupKey("a", "b:c") == k;
  }
}

=== FILE: trace.dfy ===
/**
 Runs of the server over a sequence of inputs from many connections:
 messages and disconnects, each applied atomically in arrival order.
 Each connection's handler remembers the client id it last registered.
 */
module Trace {
  import opened Wrappers
  import opened Values
  import opened Envelope
  import opened Game
  import opened Registry
  import opened Server

  /** The server plus, per open connection, the client id its handler last registered. */
  datatype World = World(server: ServerState, sessions: map<ConnId, string>)

  const Start: World := World(Initial, map[])

  /** What the transport delivers: a decoded message (with the die roll and the
      ids whose send will fail in a broadcast it causes), or a closed connection. */
  datatype Input =
    | Receive(conn: ConnId, msg: Value, roll: int, failed: set<string>)
    | Close(conn: ConnId)

  /** An emitted event together with the dedup key of the request that caused it. */
  datatype Emission = Emission(key: string, event: Event)

  /** One input's effect on the world, and the event it emitted, if any. */
  datatype Stepped = Stepped(world: World, emitted: Option<Emission>)

  /** A run's final world and the events it emitted, in order. */
  datatype Ran = Ran(world: World, emitted: seq<Emission>)

  predicate InputOk(i: Input)
  {
    i.Receive? ==> MessageRollFits(i.msg, i.roll)
  }

  function Registered(w: World, conn: ConnId): Option<string>
  {
    if conn in w.sessions then Some(w.sessions[conn]) else None
  }

  /**
   One input. Only a message that passes the envelope check, is not a
   duplicate and whose command succeeds emits an event; seq advances by at
   most one and the dedup map only gains the emitting request's key.
   */
  function StepWorld(w: World, i: Input): (r: Stepped)
    requires InputOk(i)
    ensures w.server.lastSeq <= r.world.server.lastSeq <= w.server.lastSeq + 1
    ensures r.emitted.None? ==> r.world.server.dedup == w.server.dedup
    ensures r.emitted.Some? ==>
              var e := r.emitted.value;
              && e.event.seqNo == r.world.server.lastSeq == w.server.lastSeq + 1
              && e.key !in w.server.dedup
              && r.world.server.dedup == w.server.dedup[e.key := e.event.seqNo]
    ensures i.Close? ==> r.world.server.lastSeq == w.server.lastSeq && r.world.server.game == w.server.game
    ensures i.Receive? && Validate(i.msg).Success? ==>
              r.world.sessions == w.sessions[i.conn := Validate(i.msg).value.clientId]
    ensures i.Receive? && Validate(i.msg).Failure? ==> r.world.sessions == w.sessions
    ensures i.Close? ==>
              && r.world.sessions == w.sessions - {i.conn}
              && r.world.server.clients == UnregisterIfCurrent(w.server.clients, Registered(w, i.conn), i.conn)
  {
    match i
    case Receive(conn, msg, roll, failed) =>
      var m := HandleMessage(w.server, conn, Registered(w, conn), msg, roll, failed);
      var sessions := if m.registered.Some? then w.sessions[conn := m.registered.value] else w.sessions;
      var e :=
        if m.outcome.Emitted? then
          var env := Validate(msg).value;
          Some(Emission(DedupKey(env.clientId, env.eventId), m.outcome.event))
        else None;
      Stepped(World(m.next, sessions), e)
    case Close(conn) =>
      Stepped(World(Disconnect(w.server, conn, Registered(w, conn)), w.sessions - {conn}), None)
  }

  /**
   The seq numbers of a run that started from counter `lo`: the counter only
   grows, emitted seqs are strictly increasing and all fresh (above `lo`, at
   most the final counter), so there are never more events than seq numbers
   used.
   */
  predicate SeqsFresh(lo: nat, r: Ran)
  {
    && lo <= r.world.server.lastSeq
    && |r.emitted| <= r.world.server.lastSeq - lo
    && (forall a, b | 0 <= a < b < |r.emitted| :: r.emitted[a].event.seqNo < r.emitted[b].event.seqNo)
    && (forall a | 0 <= a < |r.emitted| :: lo < r.emitted[a].event.seqNo <= r.world.server.lastSeq)
  }

  /** Starting earlier only widens the range of fresh seqs. */
  lemma SeqsFreshFromBelow(lo: nat, mid: nat, r: Ran)
    requires lo <= mid
    requires SeqsFresh(mid, r)
    ensures SeqsFresh(lo, r)
  {
  }

  /** An event with the next seq can go in front of a run that starts one later. */
  lemma {:induction false} SeqsFreshPrepend(lo: nat, e: Emission, rest: Ran)
    requires e.event.seqNo == lo + 1
    requires SeqsFresh(lo + 1, rest)
    ensures SeqsFresh(lo, Ran(rest.world, [e] + rest.emitted))
  {
    var em := [e] + rest.emitted;
    assert forall a | 0 < a < |em| :: em[a] == rest.emitted[a - 1];
  }

  /** A run: the inputs in order, each stepping the world left by the one before. */
  function Run(w: World, inputs: seq<Input>): (r: Ran)
    requires forall k | 0 <= k < |inputs| :: InputOk(inputs[k])
    ensures SeqsFresh(w.server.lastSeq, r)
    decreases |inputs|
  {
    if inputs == [] then Ran(w, [])
    else
      var first := StepWorld(w, inputs[0]);
      var rest := Run(first.world, inputs[1..]);
      if first.emitted.None? then
        SeqsFreshFromBelow(w.server.lastSeq, first.world.server.lastSeq, rest);
        rest
      else
        SeqsFreshPrepend(w.server.lastSeq, first.emitted.value, rest);
        Ran(rest.world, [first.emitted.value] + rest.emitted)
  }

  /**
   How a run's result relates to the records it started from: each event's
   request is new at the start and recorded with that event's seq at the
   end, and no earlier record changes.
   */
  predicate Recorded(start: map<string, nat>, r: Ran)
  {
    && (forall a | 0 <= a < |r.emitted| ::
          r.emitted[a].key !in start
          && r.emitted[a].key in r.world.server.dedup
          && r.world.server.dedup[r.emitted[a].key] == r.emitted[a].event.seqNo)
    && (forall k | k in start :: k in r.world.server.dedup && r.world.server.dedup[k] == start[k])
  }

  /** Every run keeps its records as `Recorded` describes. */
  lemma {:induction false} RunRecords(w: World, inputs: seq<Input>)
    requires forall k | 0 <= k < |inputs| :: InputOk(inputs[k])
    ensures Recorded(w.server.dedup, Run(w, inputs))
    decreases |inputs|
  {
    if inputs != [] {
      var first := StepWorld(w, inputs[0]);
      var rest := Run(first.world, inputs[1..]);
      RunRecords(first.world, inputs[1..]);
      var fin := rest.world.server.dedup;
      if first.emitted.Some? {
        var e := first.emitted.value;
        var em := Run(w, inputs).emitted;
        assert Run(w, inputs).world == rest.world;
        assert em == [e] + rest.emitted;
        assert e.key in first.world.server.dedup && first.world.server.dedup[e.key] == e.event.seqNo;
        forall a | 0 <= a < |em|
          ensures em[a].key !in w.server.dedup && em[a].key in fin && fin[em[a].key] == em[a].event.seqNo
        {
          if a > 0 {
            assert em[a] == rest.emitted[a - 1];
          }
        }
        forall k | k in w.server.dedup
          ensures k in fin && fin[k] == w.server.dedup[k]
        {
          assert first.world.server.dedup[k] == w.server.dedup[k];
        }
      }
    }
  }

  /** Events with increasing seqs that a record maps each to its own seq carry distinct keys. */
  lemma RecordedKeysDistinct(em: seq<Emission>, fin: map<string, nat>)
    requires forall a | 0 <= a < |em| :: em[a].key in fin && fin[em[a].key] == em[a].event.seqNo
    requires forall a, b | 0 <= a < b < |em| :: em[a].event.seqNo < em[b].event.seqNo
    ensures forall a, b | 0 <= a < b < |em| :: em[a].key != em[b].key
  {
  }

  /** Exactly-once: no two events of a run come from the same request. */
  lemma AtMostOnce(w: World, inputs: seq<Input>)
    requires forall k | 0 <= k < |inputs| :: InputOk(inputs[k])
    ensures var em := Run(w, inputs).emitted;
            forall a, b | 0 <= a < b < |em| :: em[a].key != em[b].key
  {
    RunRecords(w, inputs);
    var r := Run(w, inputs);
    RecordedKeysDistinct(r.emitted, r.world.server.dedup);
  }

  /** The server invariant holds after every run from a state that has it. */
  lemma {:induction false} RunKeepsInv(w: World, inputs: seq<Input>)
    requires Inv(w.server)
    requires forall k | 0 <= k < |inputs| :: InputOk(inputs[k])
    ensures Inv(Run(w, inputs).world.server)
    decreases |inputs|
  {
    if inputs != [] {
      var i := inputs[0];
      if i.Receive? {
        HandleMessageKeepsInv(w.server, i.conn, Registered(w, i.conn), i.msg, i.roll, i.failed);
      } else {
        DisconnectKeepsInv(w.server, i.conn, Registered(w, i.conn));
      }
      RunKeepsInv(StepWorld(w, i).world, inputs[1..]);
    }
  }

  const GapJoin: Envelope := Envelope("p1", "e2", "JOIN", map["name" := Str("Ann")])
  const GapDance: Envelope := Envelope("p1", "e1", "DANCE", map[])

  /** The unknown command is refused but takes seq 1. */
  lemma GapFirstStep()
    ensures StepWorld(Start, Receive(7, ToValue(GapDance), 0, {}))
            == Stepped(World(Initial.(lastSeq := 1, clients := map["p1" := 7]), map[7 := "p1"]), None)
  {
    ValidateToValue(GapDance);
    assert ParseCommand("DANCE") == Unknown("DANCE");
  }

  lemma StripAnn()
    ensures Strip("Ann") == "Ann"
  {
    assert !IsSpace('A') && !IsSpace('n');
    assert TrimLeft("Ann") == "Ann";
    assert TrimRight("Ann") == "Ann";
  }

  lemma GapJoinApplies()
    ensures ApplyJoin(Initial.game, "p1", GapJoin.payload).Success?
    ensures ApplyJoin(Initial.game, "p1", GapJoin.payload).value.body == Joined("p1", "Ann")
  {
    var p := map["name" := Str("Ann")];
    assert GapJoin.payload == p;
    assert Get(p, "name") == Some(Str("Ann"));
    assert AsStr(Get(p, "name")) == Some("Ann");
    assert !AllSpace("Ann") by { assert !IsSpace("Ann"[0]); }
    StripAnn();
  }

  /** The JOIN's request key. */
  lemma GapKey()
    ensures DedupKey("p1", "e2") == "p1:e2"
  {
    assert DedupKey("p1", "e2") == ['p', '1', ':', 'e', '2'];
  }

  /** The server handles that JOIN with seq 2. */
  lemma GapJoinHandled()
    ensures var h := HandleCommand(Initial.(lastSeq := 1, clients := map["p1" := 7]), GapJoin, 0, {});
            && h.next.lastSeq == 2
            && h.outcome == Emitted(Event(2, "e2", Joined("p1", "Ann")))
  {
    var s1 := Initial.(lastSeq := 1, clients := map["p1" := 7]);
    assert ParseCommand("JOIN") == Join;
    GapKey();
    GapJoinApplies();
    assert Apply(s1.game, "p1", Join, GapJoin.payload, 0) == ApplyJoin(Initial.game, "p1", GapJoin.payload);
  }

  /** A message whose handling emits steps the world to the handler's state and emits under its request's key. */
  lemma ReceiveEmits(w: World, conn: ConnId, msg: Value, roll: int, failed: set<string>, env: Envelope)
    requires MessageRollFits(msg, roll)
    requires Validate(msg) == Success(env)
    requires HandleMessage(w.server, conn, Registered(w, conn), msg, roll, failed).outcome.Emitted?
    ensures var m := HandleMessage(w.server, conn, Registered(w, conn), msg, roll, failed);
            var r := StepWorld(w, Receive(conn, msg, roll, failed));
            && r.world.server == m.next
            && r.emitted == Some(Emission(DedupKey(env.clientId, env.eventId), m.outcome.event))
  {
  }

  /** A valid message is handled by registering its sender and handling its command. */
  lemma ReceiveValid(s: ServerState, conn: ConnId, registered: Option<string>, msg: Value, roll: int, failed: set<string>, env: Envelope)
    requires MessageRollFits(msg, roll)
    requires Validate(msg) == Success(env)
    ensures var h := HandleCommand(s.(clients := Register(s.clients, env.clientId, conn)), env, roll, failed);
            HandleMessage(s, conn, registered, msg, roll, failed) == MessageResult(h.next, Some(env.clientId), h.outcome, h.recipients)
  {
  }

  /** The JOIN that follows is broadcast with seq 2. */
  lemma GapSecondStep(msg: Value)
    requires Validate(msg) == Success(GapJoin)
    ensures MessageRollFits(msg, 0)
    ensures var w1 := World(Initial.(lastSeq := 1, clients := map["p1" := 7]), map[7 := "p1"]);
            var r := StepWorld(w1, Receive(7, msg, 0, {}));
            && r.world.server.lastSeq == 2
            && r.emitted == Some(Emission("p1:e2", Event(2, "e2", Joined("p1", "Ann"))))
  {
    var s1 := Initial.(lastSeq := 1, clients := map["p1" := 7]);
    var w1 := World(s1, map[7 := "p1"]);
    assert CommandRollFits(GapJoin, 0);
    assert s1.(clients := Register(s1.clients, "p1", 7)) == s1;
    GapJoinHandled();
    ReceiveValid(s1, 7, Registered(w1, 7), msg, 0, {}, GapJoin);
    ReceiveEmits(w1, 7, msg, 0, {}, GapJoin);
    GapKey();
  }

  /** A one-input run whose input emits is that input's step. */
  lemma RunOne(w: World, i: Input)
    requires InputOk(i)
    requires StepWorld(w, i).emitted.Some?
    ensures var s := StepWorld(w, i);
            Run(w, [i]) == Ran(s.world, [s.emitted.value])
  {
    var s := [i];
    assert s[0] == i && s[1..] == [];
    var first := StepWorld(w, s[0]);
    var rest := Run(first.world, s[1..]);
    assert rest == Ran(first.world, []);
    assert Run(w, s) == Ran(rest.world, [first.emitted.value] + rest.emitted);
    assert [first.emitted.value] + rest.emitted == [first.emitted.value];
  }

  /** A run of two inputs, the first emitting nothing, is the second input's step after the first. */
  lemma RunTwoSilentFirst(w: World, i1: Input, i2: Input)
    requires InputOk(i1) && InputOk(i2)
    requires StepWorld(w, i1).emitted.None?
    ensures Run(w, [i1, i2]) == Run(StepWorld(w, i1).world, [i2])
  {
    var s := [i1, i2];
    assert s[0] == i1 && s[1..] == [i2];
    var first := StepWorld(w, s[0]);
    assert Run(w, s) == Run(first.world, s[1..]);
  }

  /**
   seq numbers can have gaps: an unknown command uses up seq 1 without an
   event, so a JOIN that follows is broadcast with seq 2.
   */
  lemma UnknownCommandLeavesGap()
    ensures var inputs := [Receive(7, ToValue(GapDance), 0, {}), Receive(7, ToValue(GapJoin), 0, {})];
            var r := Run(Start, inputs);
            && r.world.server.lastSeq == 2
            && r.emitted == [Emission("p1:e2", Event(2, "e2", Joined("p1", "Ann")))]
  {
    var i1 := Receive(7, ToValue(GapDance), 0, {});
    var i2 := Receive(7, ToValue(GapJoin), 0, {});
    ValidateToValue(GapDance);
    ValidateToValue(GapJoin);
    assert InputOk(i1) && InputOk(i2);
    GapFirstStep();
    GapSecondStep(ToValue(GapJoin));
    RunTwoSilentFirst(Start, i1, i2);
    RunOne(StepWorld(Start, i1).world, i2);
  }
}

=== FILE: values.dfy ===
/**
 A decoded JSON value, seen the way the server inspects it: strings,
 integers, booleans, objects, and everything else lumped together.
 Also Python's `isinstance` tests and `str.strip()` as the server uses them.
 */
module Values {
  import opened Wrappers

  datatype Value =
    | Str(s: string)
    | Int(n: int)
    | Bool(b: bool)
    | Dict(fields: map<string, Value>)
    | Other

  /** `d.get(key)` on a JSON object. */
  function Get(fields: map<string, Value>, key: string): Option<Value>
  {
    if key in fields then Some(fields[key]) else None
  }

  /** `isinstance(v, str)`: the string, when `v` is one. */
  function AsStr(v: Option<Value>): (r: Option<string>)
    ensures r.Some? <==> v.Some? && v.value.Str?
    ensures r.Some? ==> v.value == Str(r.value)
  {
    match v
    case Some(Str(s)) => Some(s)
    case _ => None
  }

  /** `isinstance(v, str) and v`: a string that is not empty. */
  function AsNonEmptyStr(v: Option<Value>): (r: Option<string>)
    ensures r.Some? <==> AsStr(v).Some? && AsStr(v).value != []
    ensures r.Some? ==> r == AsStr(v)
  {
    match v
    case Some(Str(s)) => if s != [] then Some(s) else None
    case _ => None
  }

  /**
   `isinstance(v, int)`: the integer, when `v` is one. Python's `bool` is a
   subclass of `int`, so `True` and `False` pass as 1 and 0.
   */
  function AsInt(v: Option<Value>): (r: Option<int>)
    ensures r.Some? <==> v.Some? && (v.value.Int? || v.value.Bool?)
    ensures r.Some? && v.value.Int? ==> r.value == v.value.n
    ensures r.Some? && v.value.Bool? ==> r.value == (if v.value.b then 1 else 0)
  {
    match v
    case Some(Int(n)) => Some(n)
    case Some(Bool(b)) => Some(if b then 1 else 0)
    case _ => None
  }

  /** Python's `str.isspace()` for one character: the Unicode whitespace code points. */
  predicate IsSpace(c: char)
  {
    var n := c as int;
    || n == 0x20
    || 0x09 <= n <= 0x0D
    || 0x1C <= n <= 0x1F
    || n == 0x85
    || n == 0xA0
    || n == 0x1680
    || 0x2000 <= n <= 0x200A
    || n == 0x2028
    || n == 0x2029
    || n == 0x202F
    || n == 0x205F
    || n == 0x3000
  }

  predicate AllSpace(s: string)
  {
    forall i :: 0 <= i < |s| ==> IsSpace(s[i])
  }

  /** Drops leading whitespace: the result is the suffix left after a whitespace-only prefix. */
  function TrimLeft(s: string): (r: string)
    ensures |r| <= |s|
    ensures r == s[|s| - |r|..]
    ensures AllSpace(s[..|s| - |r|])
    ensures r != [] ==> !IsSpace(r[0])
  {
    if s != [] && IsSpace(s[0]) then
      var r := TrimLeft(s[1..]);
      assert AllSpace(s[..|s| - |r|]) by {
        var cut := s[..|s| - |r|];
        forall k | 0 <= k < |cut|
          ensures IsSpace(cut[k])
        {
          if k > 0 {
            assert cut[k] == s[1..][..|s| - 1 - |r|][k - 1];
          }
        }
      }
      r
    else s
  }

  /** Drops trailing whitespace: the result is the prefix before a whitespace-only suffix. */
  function TrimRight(s: string): (r: string)
    ensures |r| <= |s|
    ensures r == s[..|r|]
    ensures AllSpace(s[|r|..])
    ensures r != [] ==> !IsSpace(r[|r| - 1])
  {
    if s != [] && IsSpace(s[|s| - 1]) then
      var init := s[..|s| - 1];
      var r := TrimRight(init);
      assert s[|r|..] == init[|r|..] + [s[|s| - 1]];
      r
    else s
  }

  /** Python's `s.strip()` with no argument. */
  function Strip(s: string): (r: string)
    ensures |r| <= |s|
    ensures r != [] ==> !IsSpace(r[0]) && !IsSpace(r[|r| - 1])
  {
    var l := TrimLeft(s);
    var r := TrimRight(l);
    assert r != [] ==> r[0] == l[0];
    r
  }

  /** `strip()` cuts `s` into whitespace, the result, and whitespace. */
  lemma StripShape(s: string)
    ensures exists i, j :: 0 <= i <= j <= |s| && Strip(s) == s[i..j]
                           && AllSpace(s[..i]) && AllSpace(s[j..])
  {
    var l := TrimLeft(s);
    var r := TrimRight(l);
    var i := |s| - |l|;
    var j := i + |r|;
    assert Strip(s) == r;
    assert l == s[i..] && AllSpace(s[..i]);
    assert r == s[i..j] by {
      assert r == l[..|r|];
      assert s[i..j] == l[..|r|];
    }
    assert AllSpace(s[j..]) by {
      assert AllSpace(l[|r|..]);
      assert s[j..] == l[|r|..];
    }
  }

  /** `not s.strip()` holds exactly when `s` is empty or only whitespace. */
  lemma StripEmptyIff(s: string)
    ensures Strip(s) == [] <==> AllSpace(s)
  {
    var l := TrimLeft(s);
    if Strip(s) == [] {
      // the left trim already consumed everything
      assert l[0..] == l;
      assert |l| == 0;
      assert s[..|s|] == s;
    }
  }
}

=== FILE: wrappers.dfy ===
/** Option and Result, the two failure-carrying shapes the model needs. */
module Wrappers {

  /** A value that may be absent, as Python's `None` or `dict.get` on a missing key. */
  datatype Option<+T> = None | Some(value: T)

  /** Either a computed value or the reason it could not be computed. */
  datatype Result<+T, +E> = Success(value: T) | Failure(error: E)
}
